=== FILE: README.md ===
# Secure real-time multiplayer game — a Dafny model of its core

The game is a small socket.io "collect the coins" game. A Node server keeps
the authoritative roster of players and the list of live collectibles. Each
browser mirrors that state, moves its own player with the keyboard, and asks
the server for every collectible it gets close to. The server credits the
first request for a live collectible, replaces the collectible with a freshly
spawned one, and tells everyone.

The model has four modules:

- `Seqs` (seqs.dfy): the list primitives the handlers are built from.
  JavaScript's `findIndex`/`find` is `IndexOf`, `filter(e => e.id !== k)` is
  `Without`, and `splice(i, 1)` is `RemoveAt`. `IndexOf` and `Without` take a
  key projection; `RemoveAt` takes the index.
- `Entities` (player.dfy): the player and collectible records and the
  client's `Player` class. It covers movement, the exact-position collision
  test, and the ranking with its in-place sort.
- `Server` (server.dfy, modelling server.js): the class `GameServer`. Its two sequence fields are
  the server's `players` and `collectibles` arrays. It has one method per
  socket handler. Each handler runs to completion, as on Node's event loop,
  and returns what it emits as `Emit` values (audience plus message). Every
  handler that starts from a state satisfying the invariant `Valid` ends in
  one, except that a connection keeps it only when its socket id is not
  already listed. `Valid` says:
  - exactly one collectible is live, worth 1 and inside the spawn area;
  - player ids are unique;
  - no score is negative.
- `Client` (client.dfy, modelling public/game.mjs): the class `GameClient`. It holds the
  browser's mirror (`currentPlayer`, `otherPlayers`, `collectibles`) and
  the socket handlers that rebuild it. It also has the per-frame
  `updatePlayer` step with its clamping to the canvas, and
  `checkCollisions`, restated over integers.

Randomness is passed in as parameters. A `Math.random()` draw is a `real`
in [0, 1), and `Date.now()` is a natural number.

## Model

| member | source | states |
|---|---|---|
| Seqs.IndexOf | server.js:123-124 | The result is -1 or a valid index, and a non-negative result points at an element with the key |
| Seqs.IndexOfAbsent | server.js:123 | `findIndex` gives -1 exactly when no element has the key (both directions) |
| Seqs.IndexOfFirst | server.js:124 | `find` returns the first match: no earlier element has the key |
| Seqs.IndexOfUpdate | public/game.mjs:45-51 | Changing the found record in place without touching its id does not change what `find` finds for any id |
| Seqs.IndexOfAppend | public/game.mjs:39-43 | Pushing a record with a different id does not change the lookup of any other id |
| Seqs.Without | server.js:150 | No element of the filtered list has the key, and its length is the original length minus the number of matches |
| Seqs.WithoutMembers | public/game.mjs:27 | An element is kept exactly when it was in the list and its key differs (both directions) |
| Seqs.WithoutAppend | server.js:150 | Filtering distributes over concatenation, so the kept elements stay in order |
| Seqs.WithoutAbsent | public/game.mjs:54 | Filtering out an id that is absent leaves the list unchanged |
| Seqs.WithoutDropsKey | server.js:150 | After the filter, `findIndex` of the removed id is -1 |
| Seqs.WithoutKeepsAbsent | public/game.mjs:54 | Filtering never brings in an id that was absent |
| Seqs.WithoutKeepsUnique | server.js:150 | If ids were unique before the filter, they are unique after it |
| Seqs.RemoveAt | server.js:128 | `splice(i, 1)`: one shorter, the same elements before `i`, the rest shifted down by one |
| Seqs.WithoutUniqueIsRemoveAt | public/game.mjs:68 | With unique ids, the client's `filter` by the collected id and the server's `splice` at its index give the same list, and the id occurs exactly once |
| Seqs.UniqueKeysCons | server.js:150 | Ids of `[x] + t` are unique exactly when `x`'s id is absent from `t` and `t`'s ids are unique |
| Entities.Player.constructor | public/Player.mjs:2-7 | Copies position and id; the score is the given one, or 0 when it is absent |
| Entities.Player.MovePlayer | public/Player.mjs:9-24 | Up/down shift y and left/right shift x by `speed` (no clamping); any other direction is a no-op; score and id are unchanged |
| Entities.Player.Collision | public/Player.mjs:26-29 | True exactly when both coordinates are equal |
| Entities.SortByScore | public/Player.mjs:33 | Sorts the array in place by descending score, and the result is a permutation of the input |
| Entities.CountAbovePermutation | public/Player.mjs:33 | Reordering the roster does not change how many players score above a given value |
| Entities.RankBounds | public/Player.mjs:33-36 | In a roster sorted by descending score, position k has at most k players strictly above it and at least k + 1 at or above its score |
| Entities.NoneAbove | public/Player.mjs:33 | If every score is at most v, nobody in the roster counts as above v |
| Entities.Player.CalculateRank | public/Player.mjs:31-39 | See the note after this table |
| Server.Spawn | server.js:91-92 | `Math.floor(r * span) + 20` lies in [20, 20 + span) for every draw r in [0, 1) |
| Server.SpawnCoversRange | server.js:75-76 | Every coordinate in [20, 20 + span) is produced by some draw |
| Server.GenerateCollectible | server.js:73-80 | A new collectible is worth 1, lies in the spawn area, and has id `Date.now() + Math.random()` |
| Server.ScoreSumUpdate | server.js:131 | Replacing one record changes the sum of scores by exactly the difference of the two scores |
| Server.CollectedIdIsGone | server.js:123-135 | With unique ids and a replacement whose id differs, the collected id is no longer live after splice and push |
| Server.CollectKeepsCollectiblesValid | server.js:128-135 | Splicing out the one live collectible and pushing a fresh one keeps exactly one live, worth 1, in the spawn area |
| Server.UpdateKeepsRosterValid | server.js:107-110 | Changing one record's position or score, but not its id, keeps ids unique and scores non-negative, provided the new score is not negative |
| Server.GameServer.constructor | server.js:69-83 | No players, one freshly generated collectible, and `Valid` holds |
| Server.GameServer.OnConnection | server.js:85-103 | Appends a player with the socket id, score 0 and a spawn-area position. Sends the newcomer the roster and the collectibles, and announces the newcomer to everyone else. The score sum is unchanged. `Valid` is kept when the id is new |
| Server.GameServer.OnPlayerMovement | server.js:106-119 | Sets the sender's position to the values sent, unchecked, and relays it to everyone else. An unknown sender changes nothing and sends nothing. Ids and scores are unchanged, and `Valid` is kept |
| Server.GameServer.OnCollectibleCollected | server.js:122-145 | See the note after this table |
| Server.GameServer.Credit | server.js:127-143 | Splice, credit and push, with the score-sum rise, the removal of the collected id and `Valid` preserved |
| Server.GameServer.OnDisconnect | server.js:148-152 | The roster becomes the filtered roster and the id is gone from it. Everyone else is told, even when the sender was not listed. `Valid` is kept. Under `Valid` the roster shrinks by exactly one when the sender was listed |
| Server.RaceForCollectible | server.js:122-145 | Two requests for the same collectible, handled one after the other. At most one is credited, and exactly one when the collectible was live and either requester listed. The score sum rises by exactly one per credit. If the collectible was live and the first requester listed, the first wins. When the collectible was not live or neither requester listed, nothing is sent and nothing changes. A credited request leaves exactly its own replacement live, and its payload names that requester. `Valid` is kept |
| Client.Clamp | public/game.mjs:124-125 | `Math.max(lo, Math.min(hi, v))` is at least lo, at most hi when lo <= hi, equals v when v is in range, and otherwise equals the bound it crossed |
| Client.ReachRequestsExact | public/game.mjs:139-147 | Every collectible closer than 17.5 is requested, and every request names one that is |
| Client.ExactCollisionIsInReach | public/game.mjs:141-145 | A player that `collision` says is on a collectible is also within the reach used by `checkCollisions` |
| Client.GameClient.constructor | public/game.mjs:8-11 | No local player, empty mirrors, and `Valid` holds |
| Client.GameClient.OnCurrentPlayers | public/game.mjs:26-37 | The other players become the received list without this client's id, in order. The local player is rebuilt from the first record with this client's id, or kept when there is none |
| Client.GameClient.OnNewPlayer | public/game.mjs:39-43 | Appends the player unless it is this client |
| Client.GameClient.OnPlayerMoved | public/game.mjs:45-51 | The first other player with the id takes the new position; nothing changes when no other player has that id |
| Client.GameClient.OnPlayerDisconnected | public/game.mjs:53-55 | The other players are filtered by the id, and the id is gone afterwards |
| Client.GameClient.OnCurrentCollectibles | public/game.mjs:57-64 | The mirrored collectibles become the received list |
| Client.GameClient.OnCollectibleCollected | public/game.mjs:66-87 | Filters out the collected id and appends the replacement. The new score goes to the local player when it is the collector, else to the first other player with that id, else to nobody. Positions are unchanged |
| Client.GameClient.UpdatePlayer | public/game.mjs:99-134 | See the note after this table |
| Client.GameClient.CheckCollisions | public/game.mjs:136-149 | Sends, in list order, one collect request for each mirrored collectible within reach of the local player |

Notes on the longer contracts:

- `Entities.Player.CalculateRank`: sorts the array in place, descending and as a permutation. It returns the 1-based index of the first record with the player's id, or 0 when there is none, together with the roster size. The rank lies between 1 + the number of players scoring strictly higher and the number scoring at least as high, both counted over the input roster. A player whose score nobody else reaches ranks first.
- `Server.GameServer.OnCollectibleCollected`:
  - When the collectible is live and the sender listed: splices out the collectible, adds its value to the sender's score, pushes a new one, and tells everyone the collector and their new score. The score sum rises by that value. The count of collectibles is unchanged.
  - Otherwise: nothing changes and nothing is sent.
  - No double credit: when ids were unique and the replacement's id is new, the collected id is no longer live afterwards.
  - `Valid` is kept.
- `Client.GameClient.UpdatePlayer`: the position becomes the old one plus the net key displacement, clamped to [10, 630] x [10, 470]. The score and id are unchanged. A movement message is sent exactly when some key was held and the clamped position changed.

## Left out

- The HTTP server, the static file routes, the security headers and socket.io delivery are left out. The model returns what a handler emits; it does not deliver it.
- The `console.log` lines of the connection and disconnection handlers are left out, because they only write to the server's console.
- Reconnection is not modelled: `GameClient.selfId` is fixed at construction, while the source reads `socket.id` afresh in each handler and socket.io assigns a new id after a reconnection.
- Concurrency is left out: each handler is one atomic state transition, as on Node's event loop. Interleavings appear only as sequential calls (`Server.RaceForCollectible`).
- `Math.random()` and `Date.now()` are parameters of the operations that use them. Floating-point rounding of `Date.now() + Math.random()` is not modelled: ids are exact reals.
- Server.GenerateCollectible: ids are not guaranteed unique, because two draws in the same millisecond can collide. Every property that depends on a fresh id takes "the replacement's id differs" as a hypothesis.
- The canvas drawing, the keyboard listeners, the animation loop and the rank display are left out. `updatePlayer` takes the held keys as a `Keys` value.
- public/Collectible.mjs is not part of this model. Mirrored collectibles are plain `Collectible` records.
- Coordinates and scores are integers. Non-integer positions, NaN and missing fields in messages are not modelled, and neither is the `score || 0` treatment of values other than a present integer or an absent one.
- Entities.Player.CalculateRank: returns the pair (rank, roster size) rather than the string `Rank: r/n`.
- Entities.Player.CalculateRank: the roster holds value records, not shared objects, so updates through aliases are not modelled.
- Entities.SortByScore: an insertion sort stands in for the engine's `Array.prototype.sort`. That sort is stable (ECMAScript 2019 and later), so tied players keep their input order; the contract promises only the descending order and the permutation and does not promise that order.
- Server.GameServer.OnCollectibleCollected: follows the code, which does nothing at all when the collector is no longer listed. In that case no replacement is spawned, and the collectible stays live.
- Server.GameServer.OnPlayerMovement: follows the code, which stores whatever position the client sends. Positions are bounded only on the client (`Client.GameClient.UpdatePlayer`), so the server invariant says nothing about player positions.

=== FILE: client.dfy ===
/** The browser side of the game (public/game.mjs): the local mirror of the
    server state that the socket handlers rebuild, the per-frame movement
    step with its clamping to the canvas, and the proximity check that asks
    the server for a pickup. What the client sends is returned as a list of
    `Request` records. */
module Client {
  import opened Seqs
  import opened Entities

  const PlayerSize := 20
  const CollectibleSize := 15
  const MoveSpeed := 5
  const CanvasWidth := 640
  const CanvasHeight := 480

  /** Which movement keys are held: ArrowUp/w/W, ArrowDown/s/S,
      ArrowLeft/a/A and ArrowRight/d/D. */
  datatype Keys = Keys(up: bool, down: bool, left: bool, right: bool) {
    predicate Any() {
      up || down || left || right
    }
  }

  /** Messages the client sends: `playerMovement {x, y}` and
      `collectibleCollected collectibleId`. */
  datatype Request = PlayerMovement(x: int, y: int) | CollectRequest(collectibleId: CollectibleId)

  function Max(a: int, b: int): int { if a < b then b else a }

  function Min(a: int, b: int): int { if a < b then a else b }

  /** `Math.max(lo, Math.min(hi, v))`. */
  function Clamp(lo: int, hi: int, v: int): (r: int)
    ensures lo <= r
    ensures lo <= hi ==> r <= hi
    ensures lo <= v <= hi ==> r == v
    ensures v < lo ==> r == lo
    ensures lo <= hi < v ==> r == hi
  {
    Max(lo, Min(hi, v))
  }

  /** Net displacement along one axis when the key for the negative and/or
      the positive direction is held: both held cancel out. */
  function Step(negative: bool, positive: bool): int {
    (if positive then MoveSpeed else 0) - (if negative then MoveSpeed else 0)
  }

  /** The pickup test of `checkCollisions`: the distance between the centres
      is below (PlayerSize + CollectibleSize) / 2 = 17.5, squared and scaled
      by 4 to stay in integers. */
  predicate InReach(px: int, py: int, c: Collectible) {
    var dx, dy := px - c.x, py - c.y;
    4 * (dx * dx + dy * dy) < (PlayerSize + CollectibleSize) * (PlayerSize + CollectibleSize)
  }

  /** The requests `checkCollisions` sends, in list order: one per
      collectible within reach of (px, py). */
  function ReachRequests(px: int, py: int, cs: seq<Collectible>): (r: seq<Request>)
    ensures |r| <= |cs|
  {
    if |cs| == 0 then []
    else (if InReach(px, py, cs[0]) then [CollectRequest(cs[0].id)] else []) + ReachRequests(px, py, cs[1..])
  }

  /** Every collectible within reach is asked for, and every request names a
      collectible within reach. */
  lemma {:induction false} ReachRequestsExact(px: int, py: int, cs: seq<Collectible>)
    ensures forall i :: 0 <= i < |cs| && InReach(px, py, cs[i]) ==>
      CollectRequest(cs[i].id) in ReachRequests(px, py, cs)
    ensures forall q :: q in ReachRequests(px, py, cs) ==>
      q.CollectRequest? && exists i :: 0 <= i < |cs| && InReach(px, py, cs[i]) && q.collectibleId == cs[i].id
  {
    if |cs| > 0 {
      var tail := cs[1..];
      ReachRequestsExact(px, py, tail);
      var head := if InReach(px, py, cs[0]) then [CollectRequest(cs[0].id)] else [];
      assert ReachRequests(px, py, cs) == head + ReachRequests(px, py, tail);
      forall i | 1 <= i < |cs| && InReach(px, py, cs[i])
        ensures CollectRequest(cs[i].id) in ReachRequests(px, py, cs)
      {
        assert cs[i] == tail[i - 1];
      }
      forall q | q in ReachRequests(px, py, cs)
        ensures q.CollectRequest? && exists i :: 0 <= i < |cs| && InReach(px, py, cs[i]) && q.collectibleId == cs[i].id
      {
        if q !in head {
          assert q in ReachRequests(px, py, tail);
          var k :| 0 <= k < |tail| && InReach(px, py, tail[k]) && q.collectibleId == tail[k].id;
          assert cs[k + 1] == tail[k];
        }
      }
    }
  }

  /** A player standing exactly on a collectible is within reach of it. */
  lemma ExactCollisionIsInReach(p: Player, c: Collectible)
    ensures p.Collision(c) ==> InReach(p.x, p.y, c)
  {
  }

  class GameClient {
    /** `socket.id`. */
    const selfId: string
    var currentPlayer: Player?
    var otherPlayers: seq<PlayerState>
    var collectibles: seq<Collectible>

    /** The mirror never lists this client among the other players, and the
        local player, once known, carries this client's id. */
    ghost predicate Valid()
      reads this, currentPlayer
    {
      IndexOf(otherPlayers, PlayerKey, selfId) == -1
      && (currentPlayer != null ==> currentPlayer.id == selfId)
    }

    constructor (selfId: string)
      ensures this.selfId == selfId
      ensures currentPlayer == null && otherPlayers == [] && collectibles == []
      ensures Valid()
    {
      this.selfId := selfId;
      currentPlayer := null;
      otherPlayers := [];
      collectibles := [];
    }

    /** `currentPlayers`: the other players become exactly the received ones
        whose id is not this client's, in order; the local player is
        (re)created from the first received record with this client's id,
        and kept as it was when there is none. */
    method OnCurrentPlayers(players: seq<PlayerState>)
      modifies this
      ensures otherPlayers == Without(players, PlayerKey, selfId)
      ensures collectibles == old(collectibles)
      ensures var i := IndexOf(players, PlayerKey, selfId);
        if i == -1 then currentPlayer == old(currentPlayer)
        else currentPlayer != null && fresh(currentPlayer)
             && currentPlayer.x == players[i].x && currentPlayer.y == players[i].y
             && currentPlayer.score == players[i].score && currentPlayer.id == selfId
      ensures old(Valid()) ==> Valid()
    {
      WithoutDropsKey(players, PlayerKey, selfId);
      otherPlayers := Without(players, PlayerKey, selfId);
      var i := IndexOf(players, PlayerKey, selfId);
      if i != -1 {
        var me := players[i];
        currentPlayer := new Player(me.x, me.y, Some(me.score), me.id);
      }
    }

    /** `newPlayer`: appended to the other players unless it is this client. */
    method OnNewPlayer(p: PlayerState)
      modifies this
      ensures otherPlayers == if p.id != selfId then old(otherPlayers) + [p] else old(otherPlayers)
      ensures currentPlayer == old(currentPlayer) && collectibles == old(collectibles)
      ensures old(Valid()) ==> Valid()
    {
      if p.id != selfId {
        IndexOfAppend(otherPlayers, p, PlayerKey, selfId);
        otherPlayers := otherPlayers + [p];
      }
    }

    /** `playerMoved`: the first other player with that id takes the new
        position; nothing changes when no other player has that id. */
    method OnPlayerMoved(id: string, x: int, y: int)
      modifies this
      ensures var i := IndexOf(old(otherPlayers), PlayerKey, id);
        otherPlayers == if i == -1 then old(otherPlayers)
                        else old(otherPlayers)[i := old(otherPlayers)[i].(x := x, y := y)]
      ensures currentPlayer == old(currentPlayer) && collectibles == old(collectibles)
      ensures old(Valid()) ==> Valid()
    {
      var i := IndexOf(otherPlayers, PlayerKey, id);
      if i != -1 {
        var player := otherPlayers[i];
        IndexOfUpdate(otherPlayers, i, player.(x := x, y := y), PlayerKey, selfId);
        otherPlayers := otherPlayers[i := player.(x := x, y := y)];
      }
    }

    /** `playerDisconnected`: every other player with that id is dropped,
        the rest keep their order. */
    method OnPlayerDisconnected(id: string)
      modifies this
      ensures otherPlayers == Without(old(otherPlayers), PlayerKey, id)
      ensures IndexOf(otherPlayers, PlayerKey, id) == -1
      ensures currentPlayer == old(currentPlayer) && collectibles == old(collectibles)
      ensures old(Valid()) ==> Valid()
    {
      WithoutDropsKey(otherPlayers, PlayerKey, id);
      if IndexOf(otherPlayers, PlayerKey, selfId) == -1 {
        WithoutKeepsAbsent(otherPlayers, PlayerKey, id, selfId);
      }
      otherPlayers := Without(otherPlayers, PlayerKey, id);
    }

    /** `currentCollectibles`: the mirror becomes a copy of the received list. */
    method OnCurrentCollectibles(received: seq<Collectible>)
      modifies this
      ensures collectibles == received
      ensures currentPlayer == old(currentPlayer) && otherPlayers == old(otherPlayers)
      ensures old(Valid()) ==> Valid()
    {
      collectibles := received;
    }

    /** `collectibleCollected`: drops every collectible with the collected id,
        appends the replacement, and records the new score on the local
        player when the collector is this client (and the local player is
        known), otherwise on the first other player with the collector's id,
        otherwise on no one. */
    method OnCollectibleCollected(collectibleId: CollectibleId, newCollectible: Collectible,
                                  playerId: string, newScore: int)
      modifies this, currentPlayer
      ensures collectibles == Without(old(collectibles), CollectibleKey, collectibleId) + [newCollectible]
      ensures |collectibles| == |old(collectibles)| - CountKey(old(collectibles), CollectibleKey, collectibleId) + 1
      ensures currentPlayer == old(currentPlayer)
      ensures currentPlayer != null ==>
        currentPlayer.x == old(currentPlayer.x) && currentPlayer.y == old(currentPlayer.y)
        && currentPlayer.id == old(currentPlayer.id)
      ensures if playerId == selfId && currentPlayer != null then
          currentPlayer.score == newScore && otherPlayers == old(otherPlayers)
        else
          (currentPlayer != null ==> currentPlayer.score == old(currentPlayer.score))
          && var i := IndexOf(old(otherPlayers), PlayerKey, playerId);
             otherPlayers == if i == -1 then old(otherPlayers)
                             else old(otherPlayers)[i := old(otherPlayers)[i].(score := newScore)]
      ensures old(Valid()) && playerId == selfId ==> otherPlayers == old(otherPlayers)
      ensures old(Valid()) ==> Valid()
    {
      collectibles := Without(collectibles, CollectibleKey, collectibleId);
      collectibles := collectibles + [newCollectible];
      if playerId == selfId && currentPlayer != null {
        currentPlayer.score := newScore;
      } else {
        var i := IndexOf(otherPlayers, PlayerKey, playerId);
        if i != -1 {
          var player := otherPlayers[i];
          IndexOfUpdate(otherPlayers, i, player.(score := newScore), PlayerKey, selfId);
          otherPlayers := otherPlayers[i := player.(score := newScore)];
        }
      }
    }

    /** `updatePlayer`: applies the held keys through `movePlayer` (up, down,
        left, right in that order), clamps the local player to
        [10, 630] x [10, 470], and sends the position only when some key was
        held and the clamped position differs from the old one. */
    method UpdatePlayer(keys: Keys) returns (sent: seq<Request>)
      modifies currentPlayer
      ensures currentPlayer == null ==> sent == []
      ensures currentPlayer != null ==>
        currentPlayer.x == Clamp(PlayerSize / 2, CanvasWidth - PlayerSize / 2,
                                 old(currentPlayer.x) + Step(keys.left, keys.right))
        && currentPlayer.y == Clamp(PlayerSize / 2, CanvasHeight - PlayerSize / 2,
                                    old(currentPlayer.y) + Step(keys.up, keys.down))
      ensures currentPlayer != null ==>
        10 <= currentPlayer.x <= 630 && 10 <= currentPlayer.y <= 470
      ensures currentPlayer != null ==>
        currentPlayer.score == old(currentPlayer.score) && currentPlayer.id == old(currentPlayer.id)
      ensures currentPlayer != null ==>
        sent == if keys.Any() && (currentPlayer.x != old(currentPlayer.x) || currentPlayer.y != old(currentPlayer.y))
                then [PlayerMovement(currentPlayer.x, currentPlayer.y)]
                else []
      ensures old(Valid()) ==> Valid()
    {
      if currentPlayer == null {
        return [];
      }
      var moved := false;
      var oldX, oldY := currentPlayer.x, currentPlayer.y;
      if keys.up {
        currentPlayer.MovePlayer("up", MoveSpeed);
        moved := true;
      }
      if keys.down {
        currentPlayer.MovePlayer("down", MoveSpeed);
        moved := true;
      }
      if keys.left {
        currentPlayer.MovePlayer("left", MoveSpeed);
        moved := true;
      }
      if keys.right {
        currentPlayer.MovePlayer("right", MoveSpeed);
        moved := true;
      }
      currentPlayer.x := Clamp(PlayerSize / 2, CanvasWidth - PlayerSize / 2, currentPlayer.x);
      currentPlayer.y := Clamp(PlayerSize / 2, CanvasHeight - PlayerSize / 2, currentPlayer.y);
      if moved && (currentPlayer.x != oldX || currentPlayer.y != oldY) {
        sent := [PlayerMovement(currentPlayer.x, currentPlayer.y)];
      } else {
        sent := [];
      }
    }

    /** `checkCollisions`: walks the mirrored collectibles in order and asks
        the server for every one within reach of the local player. */
    method CheckCollisions() returns (sent: seq<Request>)
      ensures currentPlayer == null ==> sent == []
      ensures currentPlayer != null ==>
        sent == ReachRequests(currentPlayer.x, currentPlayer.y, collectibles)
    {
      if currentPlayer == null {
        return [];
      }
      var px, py, cs := currentPlayer.x, currentPlayer.y, collectibles;
      sent := [];
      var i := 0;
      while i < |cs|
        invariant 0 <= i <= |cs|
        invariant sent + ReachRequests(px, py, cs[i..]) == ReachRequests(px, py, cs)
      {
        var c := cs[i];
        assert cs[i..][0] == c && cs[i..][1..] == cs[i + 1..];
        ghost var head := if InReach(px, py, c) then [CollectRequest(c.id)] else [];
        assert ReachRequests(px, py, cs[i..]) == head + ReachRequests(px, py, cs[i + 1..]);
        if InReach(px, py, c) {
          sent := sent + [CollectRequest(c.id)];
        }
        i := i + 1;
      }
      assert cs[i..] == [];
    }
  }
}

=== FILE: player.dfy ===
/** The game's entities (public/Player.mjs): the player and collectible
    records the server stores and the clients mirror, and the `Player` class
    the client drives, with movement, the exact-position collision test and
    the score ranking. */
module Entities {
  import opened Seqs

  /** A collectible's id is `Date.now() + Math.random()`, a JavaScript number. */
  type CollectibleId = real

  /** A plain player record `{id, x, y, score}`. */
  datatype PlayerState = PlayerState(id: string, x: int, y: int, score: int)

  /** A plain collectible record `{x, y, value, id}`. */
  datatype Collectible = Collectible(x: int, y: int, value: int, id: CollectibleId)

  datatype Option<T> = None | Some(value: T)

  function PlayerKey(p: PlayerState): string { p.id }

  function CollectibleKey(c: Collectible): CollectibleId { c.id }

  /** Scores never increase along `s` (the order `arr.sort((a, b) => b.score - a.score)` produces). */
  predicate ScoresDescending(s: seq<PlayerState>) {
    forall i, j :: 0 <= i < j < |s| ==> s[i].score >= s[j].score
  }

  /** Number of players in `s` whose score is strictly above `v`. */
  function CountAbove(s: seq<PlayerState>, v: int): (n: nat)
    ensures n <= |s|
  {
    if |s| == 0 then 0
    else (if s[0].score > v then 1 else 0) + CountAbove(s[1..], v)
  }

  /** Number of players in `s` whose score is at least `v` (scores are integers). */
  function CountAtLeast(s: seq<PlayerState>, v: int): nat {
    CountAbove(s, v - 1)
  }

  lemma {:induction false} CountAboveAppend(a: seq<PlayerState>, b: seq<PlayerState>, v: int)
    ensures CountAbove(a + b, v) == CountAbove(a, v) + CountAbove(b, v)
  {
    if |a| == 0 {
      assert a + b == b;
    } else {
      assert (a + b)[1..] == a[1..] + b;
      CountAboveAppend(a[1..], b, v);
    }
  }

  /** Taking one player out of a roster lowers the count by that player's
      share only. */
  lemma CountAboveRemoveAt(t: seq<PlayerState>, i: nat, v: int)
    requires i < |t|
    ensures CountAbove(t, v) == CountAbove(RemoveAt(t, i), v) + (if t[i].score > v then 1 else 0)
  {
    assert t == t[..i] + [t[i]] + t[i + 1..];
    CountAboveAppend(t[..i] + [t[i]], t[i + 1..], v);
    CountAboveAppend(t[..i], [t[i]], v);
    CountAboveAppend(t[..i], t[i + 1..], v);
  }

  /** Taking one element out of a sequence takes it out of its multiset. */
  lemma MultisetRemoveAt<T>(t: seq<T>, i: nat)
    requires i < |t|
    ensures multiset(RemoveAt(t, i)) == multiset(t) - multiset{t[i]}
  {
    assert t == t[..i] + [t[i]] + t[i + 1..];
  }

  /** The counts depend only on who is in the roster, not on its order:
      sorting leaves them unchanged. */
  lemma {:induction false} CountAbovePermutation(s: seq<PlayerState>, t: seq<PlayerState>, v: int)
    requires multiset(s) == multiset(t)
    ensures CountAbove(s, v) == CountAbove(t, v)
    decreases |s|
  {
    if |s| == 0 {
      assert |t| == |multiset(t)| == 0;
    } else {
      assert s[0] in multiset(t);
      var i :| 0 <= i < |t| && t[i] == s[0];
      MultisetRemoveAt(t, i);
      assert s == [s[0]] + s[1..];
      assert multiset(s[1..]) == multiset(RemoveAt(t, i));
      CountAbovePermutation(s[1..], RemoveAt(t, i), v);
      CountAboveRemoveAt(t, i, v);
    }
  }

  /** In a roster sorted by descending score, the player at 0-based position
      `k` has at most `k` players strictly above it and at least `k + 1`
      players (itself included) at or above its score. */
  lemma {:induction false} RankBounds(s: seq<PlayerState>, k: nat)
    requires ScoresDescending(s) && k < |s|
    ensures CountAbove(s, s[k].score) <= k
    ensures k + 1 <= CountAtLeast(s, s[k].score)
  {
    if k == 0 {
      NoneAbove(s, s[0].score);
    } else {
      assert ScoresDescending(s[1..]);
      assert s[1..][k - 1] == s[k];
      RankBounds(s[1..], k - 1);
    }
  }

  /** When no score exceeds `v`, nobody counts as above `v`. */
  lemma {:induction false} NoneAbove(s: seq<PlayerState>, v: int)
    requires forall i :: 0 <= i < |s| ==> s[i].score <= v
    ensures CountAbove(s, v) == 0
  {
    if |s| > 0 {
      assert forall i :: 0 <= i < |s[1..]| ==> s[1..][i] == s[i + 1];
      NoneAbove(s[1..], v);
    }
  }

  /** Exchanges two entries of the roster array. */
  method Swap(a: array<PlayerState>, i: nat, j: nat)
    requires i < a.Length && j < a.Length
    modifies a
    ensures a[..] == old(a[..])[i := old(a[j])][j := old(a[i])]
    ensures multiset(a[..]) == multiset(old(a[..]))
  {
    a[i], a[j] := a[j], a[i];
  }

  /** `arr.sort((a, b) => b.score - a.score)`: sorts the roster in place,
      highest score first. Ties may come out in any order. */
  method SortByScore(a: array<PlayerState>)
    modifies a
    ensures ScoresDescending(a[..])
    ensures multiset(a[..]) == multiset(old(a[..]))
  {
    var i := 0;
    while i < a.Length
      invariant 0 <= i <= a.Length
      invariant forall p, q :: 0 <= p < q < i ==> a[p].score >= a[q].score
      invariant multiset(a[..]) == multiset(old(a[..]))
    {
      var j := i;
      while 0 < j && a[j - 1].score < a[j].score
        invariant 0 <= j <= i
        invariant forall p, q :: 0 <= p < q <= i && p != j && q != j ==> a[p].score >= a[q].score
        invariant forall q :: j < q <= i ==> a[j].score > a[q].score
        invariant multiset(a[..]) == multiset(old(a[..]))
      {
        Swap(a, j - 1, j);
        j := j - 1;
      }
      i := i + 1;
    }
  }

  /** A client-side player (public/Player.mjs). */
  class Player {
    var x: int
    var y: int
    var score: int
    var id: string

    /** `new Player({x, y, score, id})`: `score || 0`, so an absent score
        (or a zero one) becomes 0. */
    constructor (x: int, y: int, score: Option<int>, id: string)
      ensures this.x == x && this.y == y && this.id == id
      ensures this.score == (if score.Some? then score.value else 0)
    {
      this.x := x;
      this.y := y;
      this.score := match score case Some(s) => s case None => 0;
      this.id := id;
    }

    /** Shifts one axis by `speed`: "up" and "down" move along y, "left" and
        "right" along x; any other direction leaves the player where it is.
        No clamping happens here. */
    method MovePlayer(dir: string, speed: int)
      modifies this`x, this`y
      ensures dir == "up" ==> x == old(x) && y == old(y) - speed
      ensures dir == "down" ==> x == old(x) && y == old(y) + speed
      ensures dir == "left" ==> x == old(x) - speed && y == old(y)
      ensures dir == "right" ==> x == old(x) + speed && y == old(y)
      ensures dir !in {"up", "down", "left", "right"} ==> x == old(x) && y == old(y)
      ensures score == old(score) && id == old(id)
    {
      if dir == "up" {
        y := y - speed;
      } else if dir == "down" {
        y := y + speed;
      } else if dir == "left" {
        x := x - speed;
      } else if dir == "right" {
        x := x + speed;
      }
    }

    /** Exact-position collision: true exactly when both coordinates agree. */
    function Collision(item: Collectible): (r: bool)
      reads this
      ensures r <==> (x, y) == (item.x, item.y)
    {
      x == item.x && y == item.y
    }

    /** Sorts `arr` in place by descending score, then reports this player's
        1-based position in it (0 when its id is absent, `findIndex` giving -1)
        and the roster size. Whatever order ties take, the rank lies between
        1 + the number of players with a strictly higher score and the number
        of players with at least that score, counted over the roster as it
        was passed in. */
    method CalculateRank(arr: array<PlayerState>) returns (rank: nat, total: nat)
      modifies arr
      ensures multiset(arr[..]) == multiset(old(arr[..]))
      ensures ScoresDescending(arr[..])
      ensures total == arr.Length && rank <= total
      ensures rank == 0 <==> forall i :: 0 <= i < arr.Length ==> arr[i].id != id
      ensures 0 < rank ==> arr[rank - 1].id == id && forall i :: 0 <= i < rank - 1 ==> arr[i].id != id
      ensures 0 < rank ==>
        var s := arr[rank - 1].score;
        1 + CountAbove(old(arr[..]), s) <= rank <= CountAtLeast(old(arr[..]), s)
      ensures 0 < rank && CountAtLeast(old(arr[..]), arr[rank - 1].score) == 1 ==> rank == 1
    {
      SortByScore(arr);
      rank := IndexOf(arr[..], PlayerKey, id) + 1;
      total := arr.Length;
      IndexOfAbsent(arr[..], PlayerKey, id);
      IndexOfFirst(arr[..], PlayerKey, id);
      if 0 < rank {
        var s := arr[rank - 1].score;
        RankBounds(arr[..], rank - 1);
        CountAbovePermutation(arr[..], old(arr[..]), s);
        CountAbovePermutation(arr[..], old(arr[..]), s - 1);
      }
    }
  }
}

=== FILE: seqs.dfy ===
/** The list primitives the game's handlers are written with: JavaScript's
    `findIndex`/`find` (first element whose key matches) and
    `filter(e => e.id !== k)` (drop every element with a given key, keep the
    rest in order), over an arbitrary key projection. */
module Seqs {

  /** Index of the first element whose key is `k`, or -1 when there is none. */
  function IndexOf<T, K(==)>(s: seq<T>, key: T -> K, k: K): (r: int)
    ensures -1 <= r < |s|
    ensures 0 <= r ==> key(s[r]) == k
  {
    if |s| == 0 then -1
    else if key(s[0]) == k then 0
    else
      var r := IndexOf(s[1..], key, k);
      if r == -1 then -1 else r + 1
  }

  /** `findIndex` gives -1 exactly when no element has the key. */
  lemma {:induction false} IndexOfAbsent<T, K>(s: seq<T>, key: T -> K, k: K)
    ensures IndexOf(s, key, k) == -1 <==> forall i :: 0 <= i < |s| ==> key(s[i]) != k
  {
    if |s| > 0 {
      IndexOfAbsent(s[1..], key, k);
      assert forall i :: 0 < i < |s| ==> s[1..][i - 1] == s[i];
    }
  }

  /** `findIndex` finds the first match: no element before it has the key. */
  lemma {:induction false} IndexOfFirst<T, K>(s: seq<T>, key: T -> K, k: K)
    ensures forall i :: 0 <= i < IndexOf(s, key, k) ==> key(s[i]) != k
  {
    if |s| > 0 && key(s[0]) != k {
      IndexOfFirst(s[1..], key, k);
      assert forall i :: 0 < i < |s| ==> s[1..][i - 1] == s[i];
    }
  }

  /** Changing an element without changing its key leaves `findIndex` as it was. */
  lemma {:induction false} IndexOfUpdate<T, K>(s: seq<T>, j: nat, x: T, key: T -> K, k: K)
    requires j < |s| && key(x) == key(s[j])
    ensures IndexOf(s[j := x], key, k) == IndexOf(s, key, k)
  {
    if 0 < j {
      assert s[j := x][1..] == s[1..][j - 1 := x];
      IndexOfUpdate(s[1..], j - 1, x, key, k);
    } else {
      assert s[j := x][1..] == s[1..];
    }
  }

  /** Appending an element with another key leaves `findIndex` as it was. */
  lemma {:induction false} IndexOfAppend<T, K>(s: seq<T>, x: T, key: T -> K, k: K)
    requires key(x) != k
    ensures IndexOf(s + [x], key, k) == IndexOf(s, key, k)
  {
    if 0 < |s| {
      assert (s + [x])[1..] == s[1..] + [x];
      IndexOfAppend(s[1..], x, key, k);
    }
  }

  /** Number of elements whose key is `k`. */
  function CountKey<T, K(==)>(s: seq<T>, key: T -> K, k: K): (n: nat)
    ensures n <= |s|
  {
    if |s| == 0 then 0
    else (if key(s[0]) == k then 1 else 0) + CountKey(s[1..], key, k)
  }

  /** `s.filter(e => key(e) !== k)`. */
  function Without<T, K(==)>(s: seq<T>, key: T -> K, k: K): (r: seq<T>)
    ensures forall i :: 0 <= i < |r| ==> key(r[i]) != k
    ensures |r| == |s| - CountKey(s, key, k)
  {
    if |s| == 0 then []
    else if key(s[0]) == k then Without(s[1..], key, k)
    else [s[0]] + Without(s[1..], key, k)
  }

  /** The filter keeps exactly the elements whose key is not `k`. */
  lemma {:induction false} WithoutMembers<T, K>(s: seq<T>, key: T -> K, k: K)
    ensures forall x :: x in Without(s, key, k) <==> x in s && key(x) != k
  {
    if |s| > 0 {
      WithoutMembers(s[1..], key, k);
      assert s == [s[0]] + s[1..];
    }
  }

  /** No two elements share a key. */
  ghost predicate UniqueKeys<T, K>(s: seq<T>, key: T -> K) {
    forall i, j :: 0 <= i < j < |s| ==> key(s[i]) != key(s[j])
  }

  /** `s.splice(i, 1)`: the sequence with position `i` taken out. */
  function RemoveAt<T>(s: seq<T>, i: nat): (r: seq<T>)
    requires i < |s|
    ensures |r| == |s| - 1
    ensures forall j :: 0 <= j < i ==> r[j] == s[j]
    ensures forall j :: i <= j < |r| ==> r[j] == s[j + 1]
  {
    s[..i] + s[i + 1..]
  }

  /** Filtering distributes over concatenation: the kept elements stay in
      their original order. */
  lemma {:induction false} WithoutAppend<T, K>(a: seq<T>, b: seq<T>, key: T -> K, k: K)
    ensures Without(a + b, key, k) == Without(a, key, k) + Without(b, key, k)
  {
    if |a| == 0 {
      assert a + b == b;
    } else {
      assert (a + b)[0] == a[0];
      assert (a + b)[1..] == a[1..] + b;
      WithoutAppend(a[1..], b, key, k);
    }
  }

  /** Filtering out a key that does not occur changes nothing. */
  lemma {:induction false} WithoutAbsent<T, K>(s: seq<T>, key: T -> K, k: K)
    requires IndexOf(s, key, k) == -1
    ensures Without(s, key, k) == s
  {
    if |s| > 0 {
      WithoutAbsent(s[1..], key, k);
    }
  }

  /** After filtering out `k`, `findIndex` no longer finds it. */
  lemma WithoutDropsKey<T, K>(s: seq<T>, key: T -> K, k: K)
    ensures IndexOf(Without(s, key, k), key, k) == -1
  {
    IndexOfAbsent(Without(s, key, k), key, k);
  }

  /** Filtering never brings in a key that was absent. */
  lemma {:induction false} WithoutKeepsAbsent<T, K>(s: seq<T>, key: T -> K, k: K, other: K)
    requires IndexOf(s, key, other) == -1
    ensures IndexOf(Without(s, key, k), key, other) == -1
  {
    if |s| > 0 {
      WithoutKeepsAbsent(s[1..], key, k, other);
      if key(s[0]) != k {
        assert ([s[0]] + Without(s[1..], key, k))[1..] == Without(s[1..], key, k);
      }
    }
  }

  /** When keys are unique, filtering by the key at position `i` removes
      exactly that position: the client's `filter` and the server's `splice`
      agree. */
  lemma WithoutUniqueIsRemoveAt<T, K>(s: seq<T>, key: T -> K, i: nat)
    requires UniqueKeys(s, key) && i < |s|
    ensures Without(s, key, key(s[i])) == RemoveAt(s, i)
    ensures CountKey(s, key, key(s[i])) == 1
  {
    UniqueKeyOnlyAt(s, key, i);
    WithoutOnlyAt(s, key, i);
  }

  /** Filtering out the key of the element at `i`, when that key occurs
      nowhere else, removes just that element. */
  lemma WithoutOnlyAt<T, K>(s: seq<T>, key: T -> K, i: nat)
    requires i < |s|
    requires IndexOf(s[..i], key, key(s[i])) == -1 && IndexOf(s[i + 1..], key, key(s[i])) == -1
    ensures Without(s, key, key(s[i])) == s[..i] + s[i + 1..]
  {
    SplitAt(s, i);
    WithoutOnlyOccurrence(s[..i], s[i], s[i + 1..], key);
  }

  /** A sequence is its prefix, the element at `i` and its suffix. */
  lemma SplitAt<T>(s: seq<T>, i: nat)
    requires i < |s|
    ensures s == s[..i] + [s[i]] + s[i + 1..]
  {
  }

  /** Filtering out the key of an element that occurs nowhere else removes
      just that element. */
  lemma WithoutOnlyOccurrence<T, K>(a: seq<T>, x: T, b: seq<T>, key: T -> K)
    requires IndexOf(a, key, key(x)) == -1 && IndexOf(b, key, key(x)) == -1
    ensures Without(a + [x] + b, key, key(x)) == a + b
  {
    var k := key(x);
    assert a + [x] + b == a + ([x] + b);
    WithoutAppend(a, [x] + b, key, k);
    WithoutAppend([x], b, key, k);
    assert Without([x], key, k) == [];
    WithoutAbsent(a, key, k);
    WithoutAbsent(b, key, k);
  }

  /** With unique keys, the key at position `i` occurs neither before nor after it. */
  lemma UniqueKeyOnlyAt<T, K>(s: seq<T>, key: T -> K, i: nat)
    requires UniqueKeys(s, key) && i < |s|
    ensures IndexOf(s[..i], key, key(s[i])) == -1
    ensures IndexOf(s[i + 1..], key, key(s[i])) == -1
  {
    var a, b := s[..i], s[i + 1..];
    forall j | 0 <= j < |a| ensures key(a[j]) != key(s[i]) {
      assert a[j] == s[j];
    }
    forall j | 0 <= j < |b| ensures key(b[j]) != key(s[i]) {
      assert b[j] == s[i + 1 + j];
    }
    IndexOfAbsent(a, key, key(s[i]));
    IndexOfAbsent(b, key, key(s[i]));
  }

  /** Keys of `[x] + t` are unique exactly when `x`'s key does not occur in
      `t` and the keys of `t` are unique. */
  lemma UniqueKeysCons<T, K>(x: T, t: seq<T>, key: T -> K)
    ensures UniqueKeys([x] + t, key) <==> IndexOf(t, key, key(x)) == -1 && UniqueKeys(t, key)
  {
    IndexOfAbsent(t, key, key(x));
    var s := [x] + t;
    if UniqueKeys(s, key) {
      forall i, j | 0 <= i < j < |t| ensures key(t[i]) != key(t[j]) {
        assert t[i] == s[i + 1] && t[j] == s[j + 1];
      }
      forall j | 0 <= j < |t| ensures key(t[j]) != key(x) {
        assert t[j] == s[j + 1] && x == s[0];
      }
    }
    if IndexOf(t, key, key(x)) == -1 && UniqueKeys(t, key) {
      forall i, j | 0 <= i < j < |s| ensures key(s[i]) != key(s[j]) {
        assert s[j] == t[j - 1];
        if 0 < i {
          assert s[i] == t[i - 1];
        }
      }
    }
  }

  /** Filtering keeps keys unique. */
  lemma {:induction false} WithoutKeepsUnique<T, K>(s: seq<T>, key: T -> K, k: K)
    requires UniqueKeys(s, key)
    ensures UniqueKeys(Without(s, key, k), key)
  {
    if |s| > 0 {
      assert s == [s[0]] + s[1..];
      UniqueKeysCons(s[0], s[1..], key);
      WithoutKeepsUnique(s[1..], key, k);
      if key(s[0]) != k {
        WithoutKeepsAbsent(s[1..], key, k, key(s[0]));
        UniqueKeysCons(s[0], Without(s[1..], key, k), key);
      }
    }
  }
}

=== FILE: server.dfy ===
/** The authoritative game state of server.js and its socket handlers. Node
    runs each handler to completion, so every handler is one sequential state
    transition of `GameServer`. What a handler sends is returned as a list of
    `Emit` records (audience and message) instead of being delivered. */
module Server {
  import opened Seqs
  import opened Entities

  /** The three audiences socket.io offers: `socket.emit` (the sender only),
      `socket.broadcast.emit` (everyone but the sender) and `io.emit` (everyone). */
  datatype Scope = ToSender(socketId: string) | AllButSender(socketId: string) | Everyone

  datatype Message =
    | CurrentPlayers(players: seq<PlayerState>)
    | CurrentCollectibles(collectibles: seq<Collectible>)
    | NewPlayer(player: PlayerState)
    | PlayerMoved(id: string, x: int, y: int)
    | CollectibleCollected(collectibleId: CollectibleId, newCollectible: Collectible, playerId: string, newScore: int)
    | PlayerDisconnected(id: string)

  datatype Emit = Emit(scope: Scope, message: Message)

  /** The random inputs of one `generateCollectible()` call: two `Math.random()`
      draws for the position, and `Date.now()` and a third draw for the id. */
  datatype CollectibleDraw = CollectibleDraw(rx: real, ry: real, now: nat, jitter: real) {
    predicate InRange() {
      0.0 <= rx < 1.0 && 0.0 <= ry < 1.0 && 0.0 <= jitter < 1.0
    }

    function Id(): CollectibleId {
      now as real + jitter
    }
  }

  /** `Math.floor(r * span) + 20` for a draw `r` of `Math.random()`. */
  function Spawn(r: real, span: int): (v: int)
    requires 0.0 <= r < 1.0 && 0 < span
    ensures 20 <= v < 20 + span
  {
    assert r * (span as real) < span as real;
    (r * (span as real)).Floor + 20
  }

  /** Every coordinate of the spawn range is produced by some draw. */
  lemma SpawnCoversRange(v: int, span: int)
    requires 0 < span && 20 <= v < 20 + span
    ensures var r := (v - 20) as real / span as real; 0.0 <= r < 1.0 && Spawn(r, span) == v
  {
    var r := (v - 20) as real / span as real;
    assert r * (span as real) == (v - 20) as real;
  }

  /** Where the server places new players and collectibles. */
  predicate InSpawnArea(x: int, y: int) {
    20 <= x <= 619 && 20 <= y <= 459
  }

  /** `generateCollectible()`: worth 1, placed in the spawn area, identified
      by the clock reading plus a random fraction. */
  function GenerateCollectible(d: CollectibleDraw): (c: Collectible)
    requires d.InRange()
    ensures c.value == 1 && InSpawnArea(c.x, c.y) && c.id == d.Id()
  {
    Collectible(Spawn(d.rx, 600), Spawn(d.ry, 440), 1, d.Id())
  }

  /** Sum of all scores. */
  function ScoreSum(ps: seq<PlayerState>): int {
    if |ps| == 0 then 0 else ScoreSum(ps[..|ps| - 1]) + ps[|ps| - 1].score
  }

  /** Replacing one player record changes the score sum by exactly the
      difference of the two scores. */
  lemma {:induction false} ScoreSumUpdate(ps: seq<PlayerState>, j: nat, p: PlayerState)
    requires j < |ps|
    ensures ScoreSum(ps[j := p]) == ScoreSum(ps) - ps[j].score + p.score
  {
    var n := |ps| - 1;
    if j < n {
      assert ps[j := p][..n] == ps[..n][j := p];
      ScoreSumUpdate(ps[..n], j, p);
    } else {
      assert ps[j := p][..n] == ps[..n];
    }
  }

  /** No double credit: once a collectible whose id is unique is spliced out
      and a replacement with another id appended, its id is no longer live. */
  lemma CollectedIdIsGone(cs: seq<Collectible>, ci: nat, replacement: Collectible)
    requires UniqueKeys(cs, CollectibleKey) && ci < |cs| && replacement.id != cs[ci].id
    ensures IndexOf(RemoveAt(cs, ci) + [replacement], CollectibleKey, cs[ci].id) == -1
  {
    WithoutUniqueIsRemoveAt(cs, CollectibleKey, ci);
    var rest := RemoveAt(cs, ci);
    forall j | 0 <= j < |rest + [replacement]|
      ensures CollectibleKey((rest + [replacement])[j]) != cs[ci].id
    {
      if j < |rest| {
        assert CollectibleKey(rest[j]) != cs[ci].id;
      }
    }
  }

  /** Exactly one collectible is live, worth 1 and in the spawn area. */
  ghost predicate ValidCollectibles(cs: seq<Collectible>) {
    |cs| == 1 && cs[0].value == 1 && InSpawnArea(cs[0].x, cs[0].y)
  }

  /** Replacing the one live collectible by a fresh one in the spawn area
      keeps exactly one live. */
  lemma CollectKeepsCollectiblesValid(cs: seq<Collectible>, ci: nat, c: Collectible)
    requires ValidCollectibles(cs) && ci < |cs| && c.value == 1 && InSpawnArea(c.x, c.y)
    ensures ValidCollectibles(RemoveAt(cs, ci) + [c])
  {
  }

  /** Player ids are unique and no score is negative. */
  ghost predicate ValidRoster(ps: seq<PlayerState>) {
    UniqueKeys(ps, PlayerKey) && forall i :: 0 <= i < |ps| ==> 0 <= ps[i].score
  }

  /** Changing one record's position and score, but not its id, keeps the
      roster valid as long as the new score is not negative. */
  lemma UpdateKeepsRosterValid(ps: seq<PlayerState>, i: nat, p: PlayerState)
    requires ValidRoster(ps) && i < |ps| && p.id == ps[i].id && 0 <= p.score
    ensures ValidRoster(ps[i := p])
  {
    var qs := ps[i := p];
    assert forall j :: 0 <= j < |qs| ==> PlayerKey(qs[j]) == PlayerKey(ps[j]);
  }

  class GameServer {
    var players: seq<PlayerState>
    var collectibles: seq<Collectible>

    /** The invariant every handler keeps: exactly one collectible is live,
        worth 1 and in the spawn area; player ids are unique; no score is
        negative. */
    ghost predicate Valid()
      reads this
    {
      ValidCollectibles(collectibles) && ValidRoster(players)
    }

    /** Server start: no players and one freshly generated collectible. */
    constructor (d: CollectibleDraw)
      requires d.InRange()
      ensures players == [] && collectibles == [GenerateCollectible(d)]
      ensures Valid()
    {
      players := [];
      collectibles := [GenerateCollectible(d)];
    }

    /** A new connection: appends a player with the socket's id, score 0 and
        a random position in the spawn area, then sends the newcomer the full
        state and announces the newcomer to everyone else. */
    method OnConnection(socketId: string, rx: real, ry: real) returns (out: seq<Emit>)
      requires 0.0 <= rx < 1.0 && 0.0 <= ry < 1.0
      modifies this
      ensures players == old(players) + [PlayerState(socketId, Spawn(rx, 600), Spawn(ry, 440), 0)]
      ensures InSpawnArea(players[|players| - 1].x, players[|players| - 1].y)
      ensures collectibles == old(collectibles)
      ensures out == [Emit(ToSender(socketId), CurrentPlayers(players)),
                      Emit(ToSender(socketId), CurrentCollectibles(collectibles)),
                      Emit(AllButSender(socketId), NewPlayer(players[|players| - 1]))]
      ensures ScoreSum(players) == ScoreSum(old(players))
      ensures old(Valid()) && IndexOf(old(players), PlayerKey, socketId) == -1 ==> Valid()
    {
      var newPlayer := PlayerState(socketId, Spawn(rx, 600), Spawn(ry, 440), 0);
      IndexOfAbsent(players, PlayerKey, socketId);
      players := players + [newPlayer];
      assert players[..|players| - 1] == old(players);
      out := [Emit(ToSender(socketId), CurrentPlayers(players)),
              Emit(ToSender(socketId), CurrentCollectibles(collectibles)),
              Emit(AllButSender(socketId), NewPlayer(newPlayer))];
    }

    /** `playerMovement`: overwrites the sender's position with whatever the
        client sent (no bounds check) and relays it to everyone else; a
        sender that is no longer listed changes nothing and sends nothing. */
    method OnPlayerMovement(sender: string, x: int, y: int) returns (out: seq<Emit>)
      modifies this
      ensures var i := IndexOf(old(players), PlayerKey, sender);
        if i == -1 then players == old(players) && out == []
        else players == old(players)[i := old(players)[i].(x := x, y := y)]
             && out == [Emit(AllButSender(sender), PlayerMoved(sender, x, y))]
      ensures |players| == |old(players)|
      ensures forall j :: 0 <= j < |players| ==>
        players[j].id == old(players)[j].id && players[j].score == old(players)[j].score
      ensures collectibles == old(collectibles)
      ensures ScoreSum(players) == ScoreSum(old(players))
      ensures old(Valid()) ==> Valid()
    {
      var i := IndexOf(players, PlayerKey, sender);
      if i == -1 {
        out := [];
      } else {
        var player := players[i];
        ScoreSumUpdate(players, i, player.(x := x, y := y));
        if ValidRoster(players) {
          UpdateKeepsRosterValid(players, i, player.(x := x, y := y));
        }
        players := players[i := player.(x := x, y := y)];
        out := [Emit(AllButSender(sender), PlayerMoved(sender, x, y))];
      }
    }

    /** `collectibleCollected`: when the collectible id is live and the sender
        is listed, removes that collectible, credits its value to the sender,
        spawns one replacement and tells everyone. Otherwise (an id already
        collected, or a sender gone) nothing changes and nothing is sent. */
    method OnCollectibleCollected(sender: string, collectibleId: CollectibleId, d: CollectibleDraw)
      returns (out: seq<Emit>)
      requires d.InRange()
      modifies this
      ensures var ci := IndexOf(old(collectibles), CollectibleKey, collectibleId);
              var pi := IndexOf(old(players), PlayerKey, sender);
        if ci == -1 || pi == -1 then
          players == old(players) && collectibles == old(collectibles) && out == []
        else
          var newScore := old(players)[pi].score + old(collectibles)[ci].value;
          collectibles == RemoveAt(old(collectibles), ci) + [GenerateCollectible(d)]
          && players == old(players)[pi := old(players)[pi].(score := newScore)]
          && out == [Emit(Everyone, CollectibleCollected(collectibleId, GenerateCollectible(d), sender, newScore))]
          && ScoreSum(players) == ScoreSum(old(players)) + old(collectibles)[ci].value
      ensures |collectibles| == |old(collectibles)|
      ensures |out| <= 1
      ensures out != [] && old(UniqueKeys(collectibles, CollectibleKey)) && d.Id() != collectibleId ==>
        IndexOf(collectibles, CollectibleKey, collectibleId) == -1
      ensures old(Valid()) ==> Valid()
    {
      var ci := IndexOf(collectibles, CollectibleKey, collectibleId);
      var pi := IndexOf(players, PlayerKey, sender);
      if ci == -1 || pi == -1 {
        return [];
      }
      var newCollectible, newScore := Credit(ci, pi, d);
      out := [Emit(Everyone, CollectibleCollected(collectibleId, newCollectible, sender, newScore))];
    }

    /** The successful branch of `collectibleCollected`: splices out the
        collectible at `ci`, credits its value to the player at `pi` and
        appends a fresh collectible. */
    method Credit(ci: nat, pi: nat, d: CollectibleDraw) returns (newCollectible: Collectible, newScore: int)
      requires d.InRange() && ci < |collectibles| && pi < |players|
      modifies this
      ensures newCollectible == GenerateCollectible(d)
      ensures newScore == old(players)[pi].score + old(collectibles)[ci].value
      ensures collectibles == RemoveAt(old(collectibles), ci) + [newCollectible]
      ensures players == old(players)[pi := old(players)[pi].(score := newScore)]
      ensures ScoreSum(players) == ScoreSum(old(players)) + old(collectibles)[ci].value
      ensures old(UniqueKeys(collectibles, CollectibleKey)) && newCollectible.id != old(collectibles)[ci].id ==>
        IndexOf(collectibles, CollectibleKey, old(collectibles)[ci].id) == -1
      ensures old(Valid()) ==> Valid()
    {
      var collected := collectibles[ci];
      newCollectible := GenerateCollectible(d);
      var remaining := RemoveAt(collectibles, ci) + [newCollectible];
      newScore := players[pi].score + collected.value;
      var credited := players[pi].(score := newScore);
      ScoreSumUpdate(players, pi, credited);
      if UniqueKeys(collectibles, CollectibleKey) && newCollectible.id != collected.id {
        CollectedIdIsGone(collectibles, ci, newCollectible);
      }
      if ValidRoster(players) && 0 <= newScore {
        UpdateKeepsRosterValid(players, pi, credited);
      }
      if ValidCollectibles(collectibles) {
        CollectKeepsCollectiblesValid(collectibles, ci, newCollectible);
      }
      players := players[pi := credited];
      collectibles := remaining;
    }

    /** `disconnect`: drops every player with the sender's id, keeping the
        others in order, and announces the departure to everyone else (even
        when the sender was not listed). */
    method OnDisconnect(sender: string) returns (out: seq<Emit>)
      modifies this
      ensures players == Without(old(players), PlayerKey, sender)
      ensures IndexOf(players, PlayerKey, sender) == -1
      ensures collectibles == old(collectibles)
      ensures out == [Emit(AllButSender(sender), PlayerDisconnected(sender))]
      ensures old(Valid()) ==> Valid()
      ensures old(Valid()) ==>
        |players| == |old(players)| - (if IndexOf(old(players), PlayerKey, sender) == -1 then 0 else 1)
    {
      if UniqueKeys(players, PlayerKey) {
        WithoutKeepsUnique(players, PlayerKey, sender);
        var i := IndexOf(players, PlayerKey, sender);
        if i != -1 {
          WithoutUniqueIsRemoveAt(players, PlayerKey, i);
        } else {
          WithoutAbsent(players, PlayerKey, sender);
        }
      }
      WithoutDropsKey(players, PlayerKey, sender);
      players := Without(players, PlayerKey, sender);
      out := [Emit(AllButSender(sender), PlayerDisconnected(sender))];
    }
  }

  /** Two players ask for the same collectible one after the other (the
      order Node happened to run the two handlers in). Exactly one of them is
      credited when the collectible was live and either player listed, and
      none otherwise; the score sum rises by one per credit; if the first
      player was listed, the first player wins. */
  method RaceForCollectible(server: GameServer, a: string, b: string, c: CollectibleId,
                            da: CollectibleDraw, db: CollectibleDraw)
    returns (outA: seq<Emit>, outB: seq<Emit>)
    requires server.Valid() && da.InRange() && db.InRange() && da.Id() != c
    modifies server
    ensures server.Valid()
    ensures |outA| + |outB| <= 1
    ensures ScoreSum(server.players) == ScoreSum(old(server.players)) + |outA| + |outB|
    ensures (IndexOf(old(server.collectibles), CollectibleKey, c) != -1
             && IndexOf(old(server.players), PlayerKey, a) != -1) ==> |outA| == 1
    ensures (IndexOf(old(server.collectibles), CollectibleKey, c) != -1
             && (IndexOf(old(server.players), PlayerKey, a) != -1
                 || IndexOf(old(server.players), PlayerKey, b) != -1)) ==> |outA| + |outB| == 1
    ensures (IndexOf(old(server.collectibles), CollectibleKey, c) == -1
             || (IndexOf(old(server.players), PlayerKey, a) == -1
                 && IndexOf(old(server.players), PlayerKey, b) == -1)) ==>
      outA == [] && outB == []
      && server.players == old(server.players) && server.collectibles == old(server.collectibles)
    ensures |outA| == 1 ==> server.collectibles == [GenerateCollectible(da)]
    ensures |outB| == 1 ==> server.collectibles == [GenerateCollectible(db)]
    ensures outA != [] ==> outA[0].message.CollectibleCollected? && outA[0].message.playerId == a
    ensures outB != [] ==> outB[0].message.CollectibleCollected? && outB[0].message.playerId == b
  {
    outA := server.OnCollectibleCollected(a, c, da);
    ghost var mid := server.players;
    if outA == [] && IndexOf(old(server.players), PlayerKey, b) != -1 {
      assert mid == old(server.players);
      assert IndexOf(mid, PlayerKey, b) != -1;
    }
    outB := server.OnCollectibleCollected(b, c, db);
  }
}
